=== FILE: README.md ===
# Almost Union-Find, modelled in Dafny

This project models the `UnionFind` structure of a solution to the Kattis problem
"Almost Union-Find" (`almost_union-find/src/main.rs`). The structure is a
parent-pointer forest over the elements `0..n`. Each element also has a list of
recorded children. It has five operations:

- `new(n)` makes `n` singleton roots with empty child lists.
- `find(i)` follows parent links recursively to a self-parented root.
- `union(p, q)` hangs `find(q)` under `find(p)` and appends `find(q)` to that root's child list.
- `move_number(p, q)` re-parents `p` under `find(q)`. It then points every child listed for `p` at the first child listed for `p`.
- `size_sum(p)` walks the child lists down from `p` and returns a (count, sum of id + 1) pair.

The model follows the code as written. The code keeps no cached sizes or sums.
`union` has no same-set guard. `move_number` never updates any child list.
`size_sum` starts its walk at `p`, not at `p`'s root.

The problem's commands say more than the code does. A `union` or `move` of two
elements already in one set is ignored. A `move(p, q)` takes `p` alone out of
its set and puts it into the set of `q`; the rest of `p`'s old set stays
together. A query of `p` reports the number of elements in `p`'s set and the sum
of their values, as the comment at line 58 says. The code departs from this in
five ways, each shown on concrete commands (see Findings):

- `union` has no same-set test. A second `union(0, 1)` lists 0 as its own
  child, and a later `size_sum(0)` recurses until the stack overflows.
- `size_sum` counts only the leaves below `p`. After `union(0, 1)` on two
  elements, `size_sum(0)` gives `(1, 2)` instead of `(2, 3)`.
- `move_number` has no same-set test. After `union(0, 1)`, `move_number(0, 1)`
  puts 0 and 1 in different sets.
- When `p` is not a root, `move_number` makes `p`'s first child a new root
  instead of giving it `p`'s place. This splits `p`'s old set: after
  `union(1, 2)`, `union(0, 1)`, `move_number(1, 3)` on four elements, 2 is no
  longer with 0.
- `move_number` never lists `p` under its new root, so later queries miss
  `p` even when the child lists have no cycle. After `move_number(0, 1)` on
  two elements, 0 is in 1's set, yet `size_sum(1)` gives `(1, 2)` instead of
  `(2, 3)`.

For each, the model keeps the code as written and adds a corrected operation
with the intended property proved about it.

Layout:

- `forest.dfy` (module `Forest`): the state `UnionFind(parents, children)`.
  It also holds `Valid` (all entries in range), `Acyclic` (a depth witness
  exists), `Find`, `OnPath` (x lies on y's parent path), `Consistent` (child
  lists agree with parent links) and `ChildAcyclic` (a height witness exists
  for the child graph).
- `operations.dfy` (module `Operations`): `New`, `Union` and `MoveNumber` as
  pure functions on the state. Also the lemmas on what each one writes, keeps
  and does to `Find`, and the corrected `GuardedUnion`.
- `size_sum.dfy` (module `Query`): `SizeSum` as written and the corrected
  `SetSizeSum`. Both are related to plain sums over the elements.
- `corrected_move.dfy` (module `CorrectedMove`): the two `move_number`
  examples and the corrected `MoveOne`. `MoveOne` keeps child lists in step
  with parent links and moves `p` alone, so the corrected query of q's set
  counts `p`.

`find` and `size_sum` recurse without a bound. `Find` terminates on a
ghost depth chosen from `Acyclic`. `SizeSum` terminates on a ghost height
chosen from `ChildAcyclic`. Every state built by `New`, `Union` and `MoveNumber`
is acyclic, so `Find` is always defined. The child graph is acyclic
whenever child lists agree with parent links. It stops being acyclic after a
same-set `union`, and it can stop after a `move_number` followed by a union of
two different sets.

## Model

| member | source | states |
|---|---|---|
| `Operations.New` | almost_union-find/src/main.rs:11-21 | every element i < n is its own parent and has an empty child list; all entries are in range and parent chains are acyclic |
| `Operations.NewInvariants` | almost_union-find/src/main.rs:11-21 | a new structure has child lists agreeing with parent links and an acyclic child graph, and `find(i) == i` for every i |
| `Forest.Valid` | almost_union-find/src/main.rs:5-8 | the state has one parent and one child list per element, and every entry names an element |
| `Forest.Find` | almost_union-find/src/main.rs:24-30 | on acyclic parent links `find(i)` returns an in-range element that is its own parent, and a root finds itself |
| `Forest.FindIsRootOnPath` | almost_union-find/src/main.rs:24-30 | r is `find(y)` if and only if r is a root lying on y's parent path |
| `Forest.FindAlongPath` | almost_union-find/src/main.rs:26-29 | every element on y's parent path, `parents[y]` in particular, has the same representative as y |
| `Forest.ConsistentChildAcyclic` | almost_union-find/src/main.rs:6-7 | when child lists list exactly the non-root elements with that parent, walks down the child lists always end |
| `Operations.UnionAcyclic` | almost_union-find/src/main.rs:38 | setting a root's parent link to another element's root keeps parent chains acyclic |
| `Operations.Union` | almost_union-find/src/main.rs:33-42 | `union` writes only `parents[find(q)] := find(p)` and appends `find(q)` to `children[find(p)]`; every other entry of both arrays is unchanged; entries stay in range and chains acyclic |
| `Operations.UnionFindEffect` | almost_union-find/src/main.rs:33-42 | after `union(p, q)` every element whose root was `find(q)` resolves to `find(p)` and every other element keeps its root |
| `Operations.UnionJoins` | almost_union-find/src/main.rs:33-42 | after `union(p, q)`, `find(q) == find(p) ==` the old `find(p)` |
| `Operations.UnionConsistent` | almost_union-find/src/main.rs:38-41 | when `find(p) != find(q)`, `union` keeps every child list equal to the set of non-root elements with that parent, each listed once |
| `Operations.UnionSameSet` | almost_union-find/src/main.rs:38-41 | when `find(p) == find(q)`, `union` leaves the parent links unchanged, appends the root to its own child list, and makes the child graph cyclic |
| `Operations.UnionTwice` | almost_union-find/src/main.rs:33-42 | calling `union(p, q)` twice in a row leaves the same parent links as calling it once, but not the same child lists |
| `Operations.UnionSameSetExample` | almost_union-find/src/main.rs:33-42 | after `union(0, 1)` on two new elements, 0 and 1 share a set, and a second `union(0, 1)` leaves a child graph with a cycle |
| `Operations.GuardedUnion` | almost_union-find/src/main.rs:33-42 | the corrected `union(p, q)` returns the state unchanged when p and q share a set; afterwards p and q resolve to p's old root, entries stay in range, parent chains acyclic, child lists agree with parent links and the child graph stays acyclic |
| `Operations.GuardedUnionFind` | almost_union-find/src/main.rs:33-42 | after the corrected union every element of q's old set resolves to p's old root and every other element keeps its root |
| `Operations.Redirect` | almost_union-find/src/main.rs:51-54 | the loop sets the parent of every listed child to the target and leaves every other parent link as it was |
| `Operations.RedirectedAcyclic` | almost_union-find/src/main.rs:45-55 | re-parenting p under a root and then every listed child under the first listed child keeps parent chains acyclic, whatever the child list holds |
| `Operations.MoveNumber` | almost_union-find/src/main.rs:45-55 | every listed child of p gets the first listed child as parent, so that child becomes a root; p gets `find(q)` as parent unless p is in its own list; no child list and no other parent link changes |
| `Operations.MoveNumberKeepsOthers` | almost_union-find/src/main.rs:45-55 | for any child lists, an element whose parent path meets neither p nor a child listed for p keeps its root |
| `Operations.MoveNumberRegroupsBelow` | almost_union-find/src/main.rs:50-54 | with child lists agreeing with parent links, every element strictly below p now resolves to p's first listed child |
| `Operations.MoveNumberFind` | almost_union-find/src/main.rs:45-55 | with child lists agreeing with parent links: p resolves to the old `find(q)`, p's former descendants resolve to its first listed child, and everyone else keeps their root |
| `Operations.MoveNumberBreaksConsistency` | almost_union-find/src/main.rs:45-55 | one `move_number(0, 1)` on two new elements already leaves 0 with parent 1 but unlisted under 1 |
| `CorrectedMove.MoveSameSetExample` | almost_union-find/src/main.rs:45-55 | `union(0, 1)` then `move_number(0, 1)` on two new elements: 0 and 1 start in one set and end in two |
| `CorrectedMove.MoveSplitsSetExample` | almost_union-find/src/main.rs:45-55 | `union(1, 2)`, `union(0, 1)`, `move_number(1, 3)` on four new elements: 2 is with 0 before and not after |
| `CorrectedMove.DetachInterior` | almost_union-find/src/main.rs:45-55 | the corrected move of a non-root p: p's children take p's parent, p is hung under the target root; p leaves its parent's list, its children join that list, and p joins the root's list |
| `CorrectedMove.InteriorAcyclic` | almost_union-find/src/main.rs:45-55 | giving p's children p's parent and hanging p under a root keeps parent chains acyclic |
| `CorrectedMove.InteriorConsistent` | almost_union-find/src/main.rs:45-55 | when p and the target root are in different sets, the corrected interior move keeps child lists equal to the non-root elements with that parent, each listed once |
| `CorrectedMove.InteriorFind` | almost_union-find/src/main.rs:45-55 | after the corrected interior move every element other than p keeps its root |
| `CorrectedMove.DetachRoot` | almost_union-find/src/main.rs:45-55 | the corrected move of a root p: its first child becomes the new root and takes over p's other children in its list; p is hung under the target root and joins its list |
| `CorrectedMove.RootConsistent` | almost_union-find/src/main.rs:45-55 | the corrected root move keeps child lists equal to the non-root elements with that parent, each listed once |
| `CorrectedMove.RootFind` | almost_union-find/src/main.rs:45-55 | after the corrected root move, the rest of p's old set resolves to p's first child and every other set keeps its root |
| `CorrectedMove.MoveOne` | almost_union-find/src/main.rs:45-55 | the corrected `move(p, q)` keeps entries in range, parent chains acyclic, child lists agreeing with parent links and the child graph acyclic |
| `CorrectedMove.MoveOneJoins` | almost_union-find/src/main.rs:45-55 | after the corrected move, p resolves to the old root of q's set |
| `CorrectedMove.MoveOneMovesOnlyP` | almost_union-find/src/main.rs:45-55 | the corrected move changes nothing when p and q share a set; otherwise p joins q's set, two other elements share a set afterwards exactly when they did before, and another element is with p afterwards exactly when it was with q before |
| `CorrectedMove.MoveOneQueryCountsP` | almost_union-find/src/main.rs:45-55 | after the corrected move, p is in q's set and the corrected query of q is the number of elements in that set and the sum of their values, p included |
| `CorrectedMove.MoveOneQueryExample` | almost_union-find/src/main.rs:45-55 | on two new elements, the corrected `move(0, 1)` followed by the corrected query of 1 gives `(2, 3)` |
| `Query.SizeSum` | almost_union-find/src/main.rs:59-77 | `size_sum(p)` is `(1, p + 1)` when p lists no children, and always satisfies `1 <= size <= sum` |
| `Query.SizeSumFrom` | almost_union-find/src/main.rs:65-76 | the component-wise sum over the listed children has `size <= sum` and a size of at least 1 when any child remains |
| `Query.SizeSumIsLeafWalk` | almost_union-find/src/main.rs:59-77 | `size_sum` adds (1, id + 1) for each element visited that lists no children and nothing for p or any other element with children |
| `Query.WalkIsTotalBelow` | almost_union-find/src/main.rs:68-74 | with child lists agreeing with parent links, a walk down the child lists from x has the same total as the elements having x on their parent path, for every weight, an arbitrary per-element function included; so it visits exactly those elements, each once |
| `Query.SizeSumCountsLeaves` | almost_union-find/src/main.rs:59-77 | with child lists agreeing with parent links, `size_sum(p)` is the number of leaves at or below p and the sum of their values |
| `Query.TreeSizeSum` | almost_union-find/src/main.rs:58 | the corrected walk counts the start element too, so its sum is at least start + 1 and `1 <= size <= sum` |
| `Query.SetSizeSum` | almost_union-find/src/main.rs:58 | the corrected query walks from `find(p)`, giving `1 <= size <= sum` |
| `Query.SetSizeSumCountsSet` | almost_union-find/src/main.rs:58 | with child lists agreeing with parent links, the corrected query is the number of elements whose root is `find(p)` and the sum of their values |
| `Query.UnionOfTwoExample` | almost_union-find/src/main.rs:33-42 | `union(0, 1)` on two new elements gives parents `[0, 0]` and child lists `[[1], []]` |
| `Query.SizeSumAfterUnionExample` | almost_union-find/src/main.rs:58-77 | after `union(0, 1)` on two new elements, `size_sum(0)` is `(1, 2)` although the set containing 0 is {0, 1} |
| `Query.SetSizeSumAfterUnionExample` | almost_union-find/src/main.rs:58 | in the same state the corrected query gives `(2, 3)` |
| `Query.StaleChildListsExample` | almost_union-find/src/main.rs:45-55 | `union(0, 1)`, `move_number(0, 1)`, `union(1, 0)` unites two different sets yet leaves a cycle in the child lists, on which `size_sum` never returns |
| `Query.MoveLosesElementExample` | almost_union-find/src/main.rs:45-62 | `move_number(0, 1)` on two new elements puts 0 into 1's set and keeps the child graph acyclic, yet both `size_sum(1)` and the corrected query of 1 give `(1, 2)` |

## Left out

- `main` and `parse_line` (almost_union-find/src/main.rs:80-116) are left out. They hold stdin reading, `unwrap` on parsing, output formatting and the shift from 1-based to 0-based ids. This is I/O plumbing.
- `tree_structure/src/lib.rs` is left out. It holds AVL-tree stubs whose functions have empty bodies, so there is no behaviour to model.
- Ids out of range make the Rust code panic on indexing. The model instead requires `p, q < n` of its callers.
- `Find` requires acyclic parent links. Every state built by `New`, `Union` and `MoveNumber` has them, so nothing reachable is excluded.
- SizeSum: requires an acyclic child graph. On a cyclic one the source recurses until the stack overflows. That behaviour is not represented. `UnionSameSet` and `StaleChildListsExample` show that such states are reachable.
- SizeSum: counts and sums are unbounded `nat`. The source accumulates in `usize`, whose overflow is not modelled.
- Recursion depth and stack limits of `find` and `size_sum` are not modelled.
- No bound such as "at most n steps" is proved for the parent walk of `find`. Termination is proved through the depth witness instead.
- Cached per-root aggregates are not modelled. The source has none. The same-set guards of `union` and `move` and the child-list repair of `move` appear only in the corrected `Operations.GuardedUnion` and `CorrectedMove.MoveOne`.
- MoveNumberRegroupsBelow: proved only for states whose child lists agree with parent links. One `move_number` already breaks that agreement (`MoveNumberBreaksConsistency`), so for a later move only `MoveNumber`'s own contract and `MoveNumberKeepsOthers` apply.
- MoveNumberFind: proved only for states whose child lists agree with parent links, for the same reason. It covers the first `move_number` after any sequence of `union`s of different sets.
- MoveOne: requires child lists that agree with parent links. It keeps that agreement, and so do `New` and a `Union` of two different sets. A same-set `Union` breaks it. `GuardedUnion` ignores such a union and keeps the agreement, so a run of `New`, `GuardedUnion` and `MoveOne` always meets this requirement.

## Findings

| source | as written | input that shows it | evidently intended | confidence | as-written member | corrected member |
|---|---|---|---|---|---|---|
| almost_union-find/src/main.rs:58-77 | `size_sum(p)` walks from `p` itself and, at an element with children, adds only the children's results, so it reports the leaves at or below `p` | `new(2)`, `union(0, 1)`, `size_sum(0)` gives `(1, 2)` | `(2, 3)`: the number of elements and the sum of values in the set containing `p`, as the comment at line 58 says | not executed | `Query.SizeSumAfterUnionExample` | `Query.SetSizeSumCountsSet` |
| almost_union-find/src/main.rs:45-55 | `move_number(p, q)` re-parents p and p's children without checking whether p and q are already in one set | `new(2)`, `union(0, 1)`, `move_number(0, 1)` leaves 0 and 1 in different sets | the move is ignored, since 0 and 1 already share a set | not executed | `CorrectedMove.MoveSameSetExample` | `CorrectedMove.MoveOneMovesOnlyP` |
| almost_union-find/src/main.rs:50-54 | when p is not a root, p's first child becomes a root of its own instead of taking p's place, so p's descendants leave p's old set (`Operations.MoveNumberFind` states this in general) | `new(4)`, `union(1, 2)`, `union(0, 1)`, `move_number(1, 3)` leaves 2 outside the set of 0 | only 1 leaves the set {0, 1, 2}; 0 and 2 stay together | not executed | `CorrectedMove.MoveSplitsSetExample` | `CorrectedMove.MoveOneMovesOnlyP` |
| almost_union-find/src/main.rs:33-42 | `union(p, q)` pushes `find(q)` onto `children[find(p)]` even when both roots are the same element | `new(2)`, `union(0, 1)`, `union(0, 1)` lists 0 as its own child, so `size_sum(0)` never returns | the second union is ignored, since 0 and 1 already share a set | not executed | `Operations.UnionSameSetExample` | `Operations.GuardedUnion` |
| almost_union-find/src/main.rs:45-55 | `move_number(p, q)` writes no child list, so p is never listed under its new root and the walk at lines 61-76 never reaches it | `new(2)`, `move_number(0, 1)`, `size_sum(1)` gives `(1, 2)` | `(2, 3)`: the set containing 1 is {0, 1} | not executed | `Query.MoveLosesElementExample` | `CorrectedMove.MoveOneQueryCountsP` |

=== FILE: corrected_move.dfy ===
/**
  `move_number(p, q)` as the problem states it: when p and q are already in one set
  nothing happens; otherwise p leaves its set and joins the set containing q, and every
  other element stays with the elements it was with.

  The code as written (`Operations.MoveNumber`) does neither: it has no same-set test,
  and when p is not a root it makes p's first listed child a new root, cutting p's
  former descendants off from the rest of p's set. The two examples below exhibit both
  behaviours on concrete commands. `MoveOne` is the corrected operation: it keeps the
  child lists in step with the parent links, `MoveOneMovesOnlyP` proves that it
  regroups the sets exactly as the problem asks, and `MoveOneQueryCountsP` that the
  corrected query of q's set then counts p.
*/
module CorrectedMove {
  import opened Forest
  import opened Operations
  import opened Query

  /** `new(2)`, `union(0, 1)`, `move_number(0, 1)`: 0 and 1 start in one set, so the
      move should be ignored, yet afterwards they are in different sets. */
  lemma MoveSameSetExample()
    ensures var joined := Union(New(2), 0, 1);
            var moved := MoveNumber(joined, 0, 1);
            Find(joined.parents, 0) == Find(joined.parents, 1)
            && Find(moved.parents, 0) != Find(moved.parents, 1)
  {
  }

  /** `new(4)`, `union(1, 2)`, `union(0, 1)`, `move_number(1, 3)`: only 1 should leave
      the set {0, 1, 2}, yet 2 leaves it as well, becoming a root of its own. */
  lemma MoveSplitsSetExample()
    ensures var built := Union(Union(New(4), 1, 2), 0, 1);
            var moved := MoveNumber(built, 1, 3);
            Find(built.parents, 2) == Find(built.parents, 0)
            && Find(moved.parents, 2) != Find(moved.parents, 0)
  {
  }

  /** s with every occurrence of x removed. */
  function Without(s: seq<nat>, x: nat): (r: seq<nat>)
    ensures forall y :: y in r <==> y in s && y != x
    ensures NoDuplicates(s) ==> NoDuplicates(r)
  {
    if |s| == 0 then []
    else if s[0] == x then Without(s[1..], x)
    else
      var rest := Without(s[1..], x);
      assert NoDuplicates(s) ==> s[0] !in s[1..];
      [s[0]] + rest
  }

  /** Two duplicate-free lists with no common element concatenate to a duplicate-free list. */
  lemma ConcatNoDuplicates(s: seq<nat>, t: seq<nat>)
    requires NoDuplicates(s) && NoDuplicates(t)
    requires forall y :: y in s ==> y !in t
    ensures NoDuplicates(s + t)
  {
    forall i, j | 0 <= i < j < |s + t|
      ensures (s + t)[i] != (s + t)[j]
    {
      if i < |s| && j >= |s| {
        assert (s + t)[i] in s && (s + t)[j] == t[j - |s|];
      }
    }
  }

  /** Moving a p that is not a root: the children of p take p's parent as theirs, p leaves
      its parent's list and is appended to the list of `root`. */
  function DetachInterior(uf: UnionFind, p: nat, root: nat): (r: UnionFind)
    requires Valid(uf) && Acyclic(uf.parents) && Consistent(uf)
    requires p < |uf.parents| && root < |uf.parents|
    requires uf.parents[p] != p && uf.parents[root] == root
    ensures Valid(r) && |r.parents| == |uf.parents| && Acyclic(r.parents)
    ensures forall y :: 0 <= y < |uf.parents| ==>
      r.parents[y] == if y == p then root else if y in uf.children[p] then uf.parents[p] else uf.parents[y]
    ensures forall x :: 0 <= x < |uf.parents| ==>
      r.children[x] ==
        if x == uf.parents[p] then Without(uf.children[x], p) + uf.children[p]
        else if x == p then []
        else if x == root then uf.children[root] + [p]
        else uf.children[x]
  {
    var n := |uf.parents|;
    var a := uf.parents[p];
    var cs := uf.children[p];
    var parents := Redirect(uf.parents, cs, a)[p := root];
    InteriorAcyclic(uf, p, root, parents);
    var moved := Without(uf.children[a], p) + cs;
    assert forall j :: 0 <= j < |moved| ==> moved[j] in uf.children[a] || moved[j] in cs;
    var children := uf.children[root := uf.children[root] + [p]][p := []][a := moved];
    UnionFind(parents, children)
  }

  /** The parent links written by `DetachInterior` are acyclic: the children of p move
      up one level and p hangs under a root. */
  lemma InteriorAcyclic(uf: UnionFind, p: nat, root: nat, next: seq<nat>)
    requires Valid(uf) && Acyclic(uf.parents) && Consistent(uf)
    requires p < |uf.parents| && root < |uf.parents|
    requires uf.parents[p] != p && uf.parents[root] == root
    requires |next| == |uf.parents|
    requires forall y :: 0 <= y < |uf.parents| ==>
      next[y] == if y == p then root else if y in uf.children[p] then uf.parents[p] else uf.parents[y]
    ensures Acyclic(next)
  {
    var n := |uf.parents|;
    var depth := Depths(uf.parents);
    var depth' := seq(n, x requires 0 <= x < n => if x == root then 0 else depth[x] + 1);
    assert InRange(next);
    forall y | 0 <= y < n && next[y] != y
      ensures depth'[next[y]] < depth'[y]
    {
      if y == p {
      } else if y in uf.children[p] {
        assert uf.parents[y] == p && y != p;
        assert depth[uf.parents[p]] < depth[p] < depth[y];
      } else {
        assert depth[uf.parents[y]] < depth[y];
      }
    }
    assert DepthWitness(next, depth');
  }

  /** `DetachInterior` keeps every child list equal to the non-root elements with that
      parent, each listed once, provided p and `root` are in different sets. */
  lemma {:induction false} InteriorConsistent(uf: UnionFind, p: nat, root: nat)
    requires Valid(uf) && Acyclic(uf.parents) && Consistent(uf)
    requires p < |uf.parents| && root < |uf.parents|
    requires uf.parents[p] != p && uf.parents[root] == root
    requires Find(uf.parents, p) != root
    ensures Consistent(DetachInterior(uf, p, root))
  {
    var r := DetachInterior(uf, p, root);
    var n := |uf.parents|;
    var a := uf.parents[p];
    var cs := uf.children[p];
    assert Find(uf.parents, p) == Find(uf.parents, a);
    assert a != root;
    forall x, y | 0 <= x < n && 0 <= y < n
      ensures y in r.children[x] <==> r.parents[y] == x && y != x
    {
      InteriorPair(uf, p, root, x, y);
    }
    forall x | 0 <= x < n
      ensures NoDuplicates(r.children[x])
    {
      InteriorNoDuplicates(uf, p, root, x);
    }
  }

  /** `DetachInterior` lists nobody twice: the children p hands to its parent are not
      already listed there, and p is not yet listed under `root`. */
  lemma {:induction false} InteriorNoDuplicates(uf: UnionFind, p: nat, root: nat, x: nat)
    requires Valid(uf) && Acyclic(uf.parents) && Consistent(uf)
    requires p < |uf.parents| && root < |uf.parents| && x < |uf.parents|
    requires uf.parents[p] != p && uf.parents[root] == root
    requires uf.parents[p] != root
    ensures NoDuplicates(DetachInterior(uf, p, root).children[x])
  {
    var a := uf.parents[p];
    var cs := uf.children[p];
    if x == a {
      forall y | y in Without(uf.children[a], p)
        ensures y !in cs
      {
        assert y in uf.children[a] && y < |uf.parents|;
        assert uf.parents[y] == a;
        assert y in cs <==> uf.parents[y] == p && y != p;
      }
      ConcatNoDuplicates(Without(uf.children[a], p), cs);
    } else if x == root {
      assert p !in uf.children[root];
      ConcatNoDuplicates(uf.children[root], [p]);
    }
  }

  /** One entry of the agreement `DetachInterior` keeps: y is listed under x exactly when
      x is y's new parent and y is not a root. */
  lemma InteriorPair(uf: UnionFind, p: nat, root: nat, x: nat, y: nat)
    requires Valid(uf) && Acyclic(uf.parents) && Consistent(uf)
    requires p < |uf.parents| && root < |uf.parents| && x < |uf.parents| && y < |uf.parents|
    requires uf.parents[p] != p && uf.parents[root] == root
    requires uf.parents[p] != root
    ensures var r := DetachInterior(uf, p, root);
            y in r.children[x] <==> r.parents[y] == x && y != x
  {
  }

  /** After `DetachInterior` every element other than p keeps its representative. */
  lemma {:induction false} InteriorFind(uf: UnionFind, p: nat, root: nat, y: nat)
    requires Valid(uf) && Acyclic(uf.parents) && Consistent(uf)
    requires p < |uf.parents| && root < |uf.parents| && y < |uf.parents|
    requires uf.parents[p] != p && uf.parents[root] == root && y != p
    ensures Find(DetachInterior(uf, p, root).parents, y) == Find(uf.parents, y)
    decreases Depths(uf.parents)[y]
  {
    var r := DetachInterior(uf, p, root);
    var a := uf.parents[p];
    var depth := Depths(uf.parents);
    if y in uf.children[p] {
      assert uf.parents[y] == p && y != p;
      assert depth[a] < depth[p] < depth[y];
      assert r.parents[y] == a;
      InteriorFind(uf, p, root, a);
      assert Find(uf.parents, y) == Find(uf.parents, p) == Find(uf.parents, a);
    } else if uf.parents[y] != y {
      assert r.parents[y] == uf.parents[y] != p;
      InteriorFind(uf, p, root, uf.parents[y]);
    } else {
      assert r.parents[y] == y;
    }
  }

  /** Moving a p that is a root: its first listed child becomes the new root of the rest of
      p's set and takes over p's other children, and p is appended to the list of `root`. */
  function DetachRoot(uf: UnionFind, p: nat, root: nat): (r: UnionFind)
    requires Valid(uf) && Acyclic(uf.parents) && Consistent(uf)
    requires p < |uf.parents| && root < |uf.parents|
    requires uf.parents[p] == p && uf.parents[root] == root && root != p
    ensures Valid(r) && |r.parents| == |uf.parents| && Acyclic(r.parents)
    ensures forall y :: 0 <= y < |uf.parents| ==>
      r.parents[y] == if y == p then root else if y in uf.children[p] then uf.children[p][0] else uf.parents[y]
    ensures forall x :: 0 <= x < |uf.parents| ==>
      r.children[x] ==
        if |uf.children[p]| > 0 && x == uf.children[p][0] then uf.children[x] + uf.children[p][1..]
        else if x == p then []
        else if x == root then uf.children[root] + [p]
        else uf.children[x]
  {
    var cs := uf.children[p];
    assert p !in cs;
    var parents := if |cs| == 0 then uf.parents[p := root] else Redirect(uf.parents[p := root], cs, cs[0]);
    RedirectedAcyclic(uf.parents, parents, p, root, cs, if |cs| == 0 then root else cs[0]);
    var hooked := uf.children[root := uf.children[root] + [p]][p := []];
    if |cs| == 0 then UnionFind(parents, hooked)
    else
      assert cs[0] in cs && cs[0] != root;
      UnionFind(parents, hooked[cs[0] := uf.children[cs[0]] + cs[1..]])
  }

  /** `DetachRoot` keeps every child list equal to the non-root elements with that parent,
      each listed once. */
  lemma RootConsistent(uf: UnionFind, p: nat, root: nat)
    requires Valid(uf) && Acyclic(uf.parents) && Consistent(uf)
    requires p < |uf.parents| && root < |uf.parents|
    requires uf.parents[p] == p && uf.parents[root] == root && root != p
    ensures Consistent(DetachRoot(uf, p, root))
  {
    var r := DetachRoot(uf, p, root);
    var n := |uf.parents|;
    var cs := uf.children[p];
    forall x, y | 0 <= x < n && 0 <= y < n
      ensures y in r.children[x] <==> r.parents[y] == x && y != x
    {
      RootPair(uf, p, root, x, y);
    }
    forall x | 0 <= x < n
      ensures NoDuplicates(r.children[x])
    {
      if |cs| > 0 && x == cs[0] {
        var rest := cs[1..];
        assert NoDuplicates(rest) by {
          forall i, j | 0 <= i < j < |rest| ensures rest[i] != rest[j] {
            assert rest[i] == cs[i + 1] && rest[j] == cs[j + 1];
          }
        }
        forall y | y in uf.children[x]
          ensures y !in rest
        {
          assert uf.parents[y] == x;
          assert cs[0] in cs && uf.parents[cs[0]] == p && p != x;
        }
        ConcatNoDuplicates(uf.children[x], rest);
      } else if x == root {
        assert p !in uf.children[root];
        ConcatNoDuplicates(uf.children[root], [p]);
      }
    }
  }

  /** One entry of the agreement `DetachRoot` keeps: y is listed under x exactly when x is
      y's new parent and y is not a root. */
  lemma RootPair(uf: UnionFind, p: nat, root: nat, x: nat, y: nat)
    requires Valid(uf) && Acyclic(uf.parents) && Consistent(uf)
    requires p < |uf.parents| && root < |uf.parents| && x < |uf.parents| && y < |uf.parents|
    requires uf.parents[p] == p && uf.parents[root] == root && root != p
    ensures var r := DetachRoot(uf, p, root);
            y in r.children[x] <==> r.parents[y] == x && y != x
  {
    var r := DetachRoot(uf, p, root);
    var cs := uf.children[p];
    assert y in cs <==> uf.parents[y] == p && y != p;
    assert p !in cs && root !in cs;
    assert y in uf.children[x] <==> uf.parents[y] == x && y != x;
    assert p in uf.children[x] <==> p == x && p != x;
    if y !in cs && y != p {
      assert r.parents[y] == uf.parents[y];
    }
    if |cs| > 0 && x == cs[0] {
      var c0 := cs[0];
      assert c0 in cs && c0 != p && c0 != root;
      assert y in cs[1..] <==> y in cs && y != c0 by {
        if y in cs && y != c0 {
          var j :| 0 <= j < |cs| && cs[j] == y;
          assert cs[1..][j - 1] == y;
        }
        if y in cs[1..] {
          var j :| 0 <= j < |cs| - 1 && cs[1..][j] == y;
          assert cs[j + 1] == y && cs[0] != cs[j + 1];
        }
      }
      assert r.children[x] == uf.children[x] + cs[1..];
    } else if x == p {
      assert r.children[x] == [];
    } else if x == root {
      assert r.children[x] == uf.children[root] + [p];
      assert y in r.children[x] <==> y in uf.children[root] || y == p;
    } else {
      assert r.children[x] == uf.children[x];
      if y in cs {
        assert r.parents[y] == cs[0];
      }
    }
  }

  /** After `DetachRoot` every element other than p that was in p's set resolves to p's
      first listed child, and every element of another set keeps its representative. */
  lemma {:induction false} RootFind(uf: UnionFind, p: nat, root: nat, y: nat)
    requires Valid(uf) && Acyclic(uf.parents) && Consistent(uf)
    requires p < |uf.parents| && root < |uf.parents| && y < |uf.parents|
    requires uf.parents[p] == p && uf.parents[root] == root && root != p && y != p
    ensures Find(uf.parents, y) == p ==>
      |uf.children[p]| > 0 && Find(DetachRoot(uf, p, root).parents, y) == uf.children[p][0]
    ensures Find(uf.parents, y) != p ==>
      Find(DetachRoot(uf, p, root).parents, y) == Find(uf.parents, y)
    decreases Depths(uf.parents)[y]
  {
    var r := DetachRoot(uf, p, root);
    var cs := uf.children[p];
    if y in cs {
      assert uf.parents[y] == p && y != p;
      var c0 := cs[0];
      assert c0 in cs && r.parents[c0] == c0;
      assert r.parents[y] == c0;
      assert Find(uf.parents, y) == Find(uf.parents, p) == p;
    } else if uf.parents[y] != y {
      var up := uf.parents[y];
      assert up != p;
      assert r.parents[y] == up;
      RootFind(uf, p, root, up);
      assert Find(uf.parents, y) == Find(uf.parents, up);
    } else {
      assert r.parents[y] == y;
    }
  }

  /** Corrected `move_number(p, q)`: ignored when p and q are in one set; otherwise p is
      detached from its set, whose remaining elements stay together, and hung under the
      root of q's set. Child lists are kept in step with parent links. */
  function MoveOne(uf: UnionFind, p: nat, q: nat): (r: UnionFind)
    requires Valid(uf) && Acyclic(uf.parents) && Consistent(uf)
    requires p < |uf.parents| && q < |uf.parents|
    ensures Valid(r) && |r.parents| == |uf.parents| && Acyclic(r.parents)
    ensures Consistent(r) && ChildAcyclic(r)
  {
    var root := Find(uf.parents, q);
    if Find(uf.parents, p) == root then
      ConsistentChildAcyclic(uf);
      uf
    else if uf.parents[p] != p then
      InteriorConsistent(uf, p, root);
      ConsistentChildAcyclic(DetachInterior(uf, p, root));
      DetachInterior(uf, p, root)
    else
      RootConsistent(uf, p, root);
      ConsistentChildAcyclic(DetachRoot(uf, p, root));
      DetachRoot(uf, p, root)
  }

  /** p itself ends up in q's set after the corrected move. */
  lemma MoveOneJoins(uf: UnionFind, p: nat, q: nat)
    requires Valid(uf) && Acyclic(uf.parents) && Consistent(uf)
    requires p < |uf.parents| && q < |uf.parents|
    ensures Find(MoveOne(uf, p, q).parents, p) == Find(uf.parents, q)
  {
  }

  /** The corrected `move_number(p, q)` does what the problem asks: nothing when p and q are
      already in one set; otherwise p joins q's set, any two elements other than p are in
      one set afterwards exactly when they were before, and an element other than p is
      with p afterwards exactly when it was with q before. */
  lemma {:induction false} MoveOneMovesOnlyP(uf: UnionFind, p: nat, q: nat, y: nat, z: nat)
    requires Valid(uf) && Acyclic(uf.parents) && Consistent(uf)
    requires p < |uf.parents| && q < |uf.parents| && y < |uf.parents| && z < |uf.parents|
    ensures Find(uf.parents, p) == Find(uf.parents, q) ==> MoveOne(uf, p, q) == uf
    ensures Find(uf.parents, p) != Find(uf.parents, q) ==>
      var after := MoveOne(uf, p, q).parents;
      && Find(after, p) == Find(after, q)
      && (y != p && z != p ==> (Find(after, y) == Find(after, z) <==> Find(uf.parents, y) == Find(uf.parents, z)))
      && (y != p ==> (Find(after, y) == Find(after, p) <==> Find(uf.parents, y) == Find(uf.parents, q)))
  {
    var root := Find(uf.parents, q);
    if Find(uf.parents, p) != root {
      var after := MoveOne(uf, p, q).parents;
      MoveOneJoins(uf, p, q);
      assert q != p;
      if uf.parents[p] != p {
        InteriorFind(uf, p, root, q);
        if y != p { InteriorFind(uf, p, root, y); }
        if z != p { InteriorFind(uf, p, root, z); }
      } else {
        RootFind(uf, p, root, q);
        if y != p { RootFind(uf, p, root, y); }
        if z != p { RootFind(uf, p, root, z); }
        if |uf.children[p]| > 0 {
          var c0 := uf.children[p][0];
          assert c0 in uf.children[p];
          assert uf.parents[c0] == p && c0 != p;
        }
      }
    }
  }

  /** After the corrected move, the query of q counts p: it reports the number of
      elements in q's set, p now among them, and the sum of their values. */
  lemma MoveOneQueryCountsP(uf: UnionFind, p: nat, q: nat)
    requires Valid(uf) && Acyclic(uf.parents) && Consistent(uf)
    requires p < |uf.parents| && q < |uf.parents|
    ensures var r := MoveOne(uf, p, q);
            var root := Find(r.parents, q);
            && Find(r.parents, p) == root
            && SetSizeSum(r, q) == (TotalInSet(r, root, Count, |r.parents|), TotalInSet(r, root, Value, |r.parents|))
  {
    var r := MoveOne(uf, p, q);
    MoveOneMovesOnlyP(uf, p, q, p, p);
    SetSizeSumCountsSet(r, q);
  }

  /** On two new elements the corrected `move(0, 1)` followed by a query of 1 gives
      (2, 3), where the code gives (1, 2). */
  lemma MoveOneQueryExample()
    ensures SetSizeSum(MoveOne(New(2), 0, 1), 1) == (2, 3)
  {
    var initial := New(2);
    NewInvariants(2);
    assert Find(initial.parents, 0) == 0 && Find(initial.parents, 1) == 1;
    var r := MoveOne(initial, 0, 1);
    assert r.parents == [1, 1];
    MoveOneQueryCountsP(initial, 0, 1);
    assert Find(r.parents, 1) == 1 && Find(r.parents, 0) == 1;
    assert TotalInSet(r, 1, Count, 1) == 1;
    assert TotalInSet(r, 1, Value, 1) == 1;
  }
}

=== FILE: forest.dfy ===
/**
  The state of the almost-union-find structure: a parent-pointer forest over the
  elements 0..n, together with a list of recorded children per element.

  The structure keeps no other data (no cached sizes, no ranks). Parent links and
  child lists are updated by different operations and need not agree with each
  other; `Consistent` below names the situation in which they do.
*/
module Forest {

  /** `parents[i]` is the parent of element i (a root is its own parent);
      `children[i]` lists the elements recorded as children of i, in insertion order. */
  datatype UnionFind = UnionFind(parents: seq<nat>, children: seq<seq<nat>>)

  /** Every parent link names an element. */
  predicate InRange(parents: seq<nat>) {
    forall i :: 0 <= i < |parents| ==> parents[i] < |parents|
  }

  /** Both arrays have one entry per element and every entry names an element. */
  predicate Valid(uf: UnionFind) {
    && |uf.children| == |uf.parents|
    && InRange(uf.parents)
    && forall x, j :: 0 <= x < |uf.children| && 0 <= j < |uf.children[x]| ==> uf.children[x][j] < |uf.parents|
  }

  /** `depth` strictly decreases along every parent link that leaves a non-root. */
  ghost predicate DepthWitness(parents: seq<nat>, depth: seq<nat>)
    requires InRange(parents)
  {
    && |depth| == |parents|
    && forall i :: 0 <= i < |parents| && parents[i] != i ==> depth[parents[i]] < depth[i]
  }

  /** Following parent links from any element reaches a self-parented root. */
  ghost predicate Acyclic(parents: seq<nat>) {
    InRange(parents) && exists depth :: DepthWitness(parents, depth)
  }

  /** A fixed depth witness of an acyclic forest, used as the termination measure
      of everything that climbs parent links. */
  ghost function Depths(parents: seq<nat>): (depth: seq<nat>)
    requires Acyclic(parents)
    ensures DepthWitness(parents, depth)
  {
    var depth :| DepthWitness(parents, depth); depth
  }

  /** The representative of the set containing i: the root reached by following parents. */
  function Find(parents: seq<nat>, i: nat): (r: nat)
    requires Acyclic(parents) && i < |parents|
    ensures r < |parents| && parents[r] == r
    ensures parents[i] == i ==> r == i
    decreases Depths(parents)[i]
  {
    if parents[i] == i then i else Find(parents, parents[i])
  }

  /** x is y itself or one of y's ancestors. */
  predicate OnPath(parents: seq<nat>, y: nat, x: nat)
    requires Acyclic(parents) && y < |parents|
    decreases Depths(parents)[y]
  {
    y == x || (parents[y] != y && OnPath(parents, parents[y], x))
  }

  /** Find returns exactly the root lying on the parent path of its argument. */
  lemma {:induction false} FindIsRootOnPath(parents: seq<nat>, y: nat, r: nat)
    requires Acyclic(parents) && y < |parents| && r < |parents|
    ensures (OnPath(parents, y, r) && parents[r] == r) <==> r == Find(parents, y)
    decreases Depths(parents)[y]
  {
    if parents[y] != y {
      FindIsRootOnPath(parents, parents[y], r);
    }
  }

  /** Every element on the parent path of y has the same representative as y;
      in particular `Find(parents[i]) == Find(i)`. */
  lemma {:induction false} FindAlongPath(parents: seq<nat>, y: nat, x: nat)
    requires Acyclic(parents) && y < |parents| && x < |parents|
    requires OnPath(parents, y, x)
    ensures Find(parents, x) == Find(parents, y)
    decreases Depths(parents)[y]
  {
    if y != x {
      FindAlongPath(parents, parents[y], x);
    }
  }

  /** Depth strictly decreases from an element to each of its proper ancestors. */
  lemma {:induction false} PathDepth(parents: seq<nat>, y: nat, x: nat)
    requires Acyclic(parents) && y < |parents| && x < |parents|
    requires OnPath(parents, y, x)
    ensures Depths(parents)[x] <= Depths(parents)[y]
    ensures x != y ==> Depths(parents)[x] < Depths(parents)[y]
    decreases Depths(parents)[y]
  {
    if y != x {
      PathDepth(parents, parents[y], x);
    }
  }

  /** Being on the parent path is transitive. */
  lemma {:induction false} PathTransitive(parents: seq<nat>, y: nat, x: nat, z: nat)
    requires Acyclic(parents) && y < |parents| && x < |parents|
    requires OnPath(parents, y, x) && OnPath(parents, x, z)
    ensures OnPath(parents, y, z)
    decreases Depths(parents)[y]
  {
    if y != x {
      PathTransitive(parents, parents[y], x, z);
    }
  }

  /** The ancestors of an element form a chain: any two of them are comparable. */
  lemma {:induction false} PathLinear(parents: seq<nat>, y: nat, a: nat, b: nat)
    requires Acyclic(parents) && y < |parents| && a < |parents| && b < |parents|
    requires OnPath(parents, y, a) && OnPath(parents, y, b)
    ensures OnPath(parents, a, b) || OnPath(parents, b, a)
    decreases Depths(parents)[y]
  {
    if y != a && y != b {
      PathLinear(parents, parents[y], a, b);
    }
  }

  /** No element occurs twice in the list. */
  predicate NoDuplicates(s: seq<nat>) {
    forall i, j :: 0 <= i < j < |s| ==> s[i] != s[j]
  }

  /** Child lists and parent links agree: `children[x]` lists exactly the non-root
      elements whose parent is x, each once. */
  predicate Consistent(uf: UnionFind)
    requires Valid(uf)
  {
    && (forall x, y :: 0 <= x < |uf.parents| && 0 <= y < |uf.parents| ==>
          (y in uf.children[x] <==> uf.parents[y] == x && y != x))
    && (forall x :: 0 <= x < |uf.children| ==> NoDuplicates(uf.children[x]))
  }

  /** `height` strictly decreases from every element to each child it lists. */
  ghost predicate HeightWitness(uf: UnionFind, height: seq<nat>)
    requires Valid(uf)
  {
    && |height| == |uf.parents|
    && forall x, j :: 0 <= x < |uf.children| && 0 <= j < |uf.children[x]| ==>
         height[uf.children[x][j]] < height[x]
  }

  /** Following child lists from any element always ends: the child graph has no cycle. */
  ghost predicate ChildAcyclic(uf: UnionFind) {
    Valid(uf) && exists height :: HeightWitness(uf, height)
  }

  /** A fixed height witness, the termination measure of walks down the child lists. */
  ghost function Heights(uf: UnionFind): (height: seq<nat>)
    requires ChildAcyclic(uf)
    ensures HeightWitness(uf, height)
  {
    var height :| HeightWitness(uf, height); height
  }

  /** The largest entry of a sequence (0 when empty). */
  function MaxOf(s: seq<nat>): (m: nat)
    ensures forall i :: 0 <= i < |s| ==> s[i] <= m
    ensures |s| > 0 ==> exists i :: 0 <= i < |s| && s[i] == m
  {
    if |s| == 0 then 0
    else
      var m := MaxOf(s[1..]);
      if s[0] >= m then s[0] else m
  }

  /** When child lists agree with parent links, walking down the child lists
      always ends: listed children are strictly deeper than their parent. */
  lemma ConsistentChildAcyclic(uf: UnionFind)
    requires Valid(uf) && Acyclic(uf.parents) && Consistent(uf)
    ensures ChildAcyclic(uf)
  {
    var depth := Depths(uf.parents);
    var top := MaxOf(depth);
    var height := seq(|uf.parents|, x requires 0 <= x < |uf.parents| => top - depth[x]);
    forall x, j | 0 <= x < |uf.children| && 0 <= j < |uf.children[x]|
      ensures height[uf.children[x][j]] < height[x]
    {
      var c := uf.children[x][j];
      assert c in uf.children[x];
      assert uf.parents[c] == x && c != x;
      assert depth[x] < depth[c] <= top;
    }
    assert HeightWitness(uf, height);
  }
}

=== FILE: operations.dfy ===
/**
  The three mutating operations of the structure, `new`, `union` and `move_number`,
  as pure functions from the old state to the new one, with what each writes, what
  it leaves alone, and what it does to the sets `Find` reports. `GuardedUnion` is the
  union the problem intends, which ignores a union of one set with itself.
*/
module Operations {
  import opened Forest

  /** n singleton roots with empty child lists. */
  function New(n: nat): (uf: UnionFind)
    ensures Valid(uf) && |uf.parents| == n && Acyclic(uf.parents)
    ensures forall i :: 0 <= i < n ==> uf.parents[i] == i && uf.children[i] == []
  {
    var parents := seq(n, i => i);
    assert DepthWitness(parents, seq(n, i => 0));
    UnionFind(parents, seq(n, i => []))
  }

  /** A fresh structure satisfies every invariant, and every element is its own set. */
  lemma NewInvariants(n: nat)
    ensures Consistent(New(n)) && ChildAcyclic(New(n))
    ensures forall i :: 0 <= i < n ==> Find(New(n).parents, i) == i
  {
    var uf := New(n);
    assert HeightWitness(uf, seq(n, i => 0));
  }

  /** Hanging one root under another keeps parent chains acyclic. */
  lemma UnionAcyclic(parents: seq<nat>, pr: nat, qr: nat)
    requires Acyclic(parents) && pr < |parents| && qr < |parents| && parents[pr] == pr
    ensures Acyclic(parents[qr := pr])
  {
    var next := parents[qr := pr];
    if pr == qr {
      assert next == parents;
    } else {
      var depth := Depths(parents);
      var depth' := seq(|parents|, x requires 0 <= x < |parents| => if x == pr then 0 else depth[x] + 1);
      assert DepthWitness(next, depth');
    }
  }

  /** `union(p, q)`: the root of q's set becomes a child of the root of p's set.
      There is no same-set guard: when both roots coincide the root is appended to
      its own child list. */
  function Union(uf: UnionFind, p: nat, q: nat): (r: UnionFind)
    requires Valid(uf) && Acyclic(uf.parents) && p < |uf.parents| && q < |uf.parents|
    ensures Valid(r) && |r.parents| == |uf.parents| && Acyclic(r.parents)
    ensures var pr, qr := Find(uf.parents, p), Find(uf.parents, q);
      && r.parents[qr] == pr
      && (forall j :: 0 <= j < |uf.parents| && j != qr ==> r.parents[j] == uf.parents[j])
      && r.children[pr] == uf.children[pr] + [qr]
      && (forall j :: 0 <= j < |uf.parents| && j != pr ==> r.children[j] == uf.children[j])
  {
    var pr := Find(uf.parents, p);
    var qr := Find(uf.parents, q);
    UnionAcyclic(uf.parents, pr, qr);
    UnionFind(uf.parents[qr := pr], uf.children[pr := uf.children[pr] + [qr]])
  }

  /** After `union(p, q)` every element of q's old set resolves to p's root and every
      other element keeps its representative. */
  lemma {:induction false} UnionFindEffect(uf: UnionFind, p: nat, q: nat, x: nat)
    requires Valid(uf) && Acyclic(uf.parents) && p < |uf.parents| && q < |uf.parents| && x < |uf.parents|
    ensures var pr, qr := Find(uf.parents, p), Find(uf.parents, q);
      Find(Union(uf, p, q).parents, x) == if Find(uf.parents, x) == qr then pr else Find(uf.parents, x)
    decreases Depths(uf.parents)[x]
  {
    var r := Union(uf, p, q);
    var pr, qr := Find(uf.parents, p), Find(uf.parents, q);
    if pr == qr {
      assert r.parents == uf.parents;
    } else if x == qr {
      assert r.parents[x] == pr && r.parents[pr] == pr;
    } else if uf.parents[x] != x {
      UnionFindEffect(uf, p, q, uf.parents[x]);
    }
  }

  /** After `union(p, q)`, p and q are in the same set, represented by p's old root. */
  lemma UnionJoins(uf: UnionFind, p: nat, q: nat)
    requires Valid(uf) && Acyclic(uf.parents) && p < |uf.parents| && q < |uf.parents|
    ensures Find(Union(uf, p, q).parents, q) == Find(Union(uf, p, q).parents, p) == Find(uf.parents, p)
  {
    UnionFindEffect(uf, p, q, p);
    UnionFindEffect(uf, p, q, q);
  }

  /** Uniting two different sets keeps child lists in agreement with parent links. */
  lemma UnionConsistent(uf: UnionFind, p: nat, q: nat)
    requires Valid(uf) && Acyclic(uf.parents) && Consistent(uf)
    requires p < |uf.parents| && q < |uf.parents|
    requires Find(uf.parents, p) != Find(uf.parents, q)
    ensures Consistent(Union(uf, p, q))
  {
  }

  /** Uniting a set with itself changes no parent link, appends the root to its own
      child list, and so leaves a child graph in which walks never end. */
  lemma UnionSameSet(uf: UnionFind, p: nat, q: nat)
    requires Valid(uf) && Acyclic(uf.parents) && p < |uf.parents| && q < |uf.parents|
    requires Find(uf.parents, p) == Find(uf.parents, q)
    ensures var r, root := Union(uf, p, q), Find(uf.parents, p);
      && r.parents == uf.parents
      && r.children[root] == uf.children[root] + [root]
      && !ChildAcyclic(r)
  {
    var r, root := Union(uf, p, q), Find(uf.parents, p);
    assert r.parents == uf.parents;
    assert r.children[root][|r.children[root]| - 1] == root;
  }

  /** Calling `union(p, q)` a second time changes no parent link but lengthens the
      root's child list again: the operation is idempotent on parents only. */
  lemma UnionTwice(uf: UnionFind, p: nat, q: nat)
    requires Valid(uf) && Acyclic(uf.parents) && p < |uf.parents| && q < |uf.parents|
    ensures var once := Union(uf, p, q);
      && Union(once, p, q).parents == once.parents
      && Union(once, p, q).children != once.children
  {
    var once := Union(uf, p, q);
    UnionJoins(uf, p, q);
    UnionSameSet(once, p, q);
    var root := Find(once.parents, p);
    assert |Union(once, p, q).children[root]| == |once.children[root]| + 1;
  }

  /** `new(2)`, `union(0, 1)`, `union(0, 1)`: the second union joins two elements already
      in one set, which should be ignored, yet it lists the root as its own child, so a
      later `size_sum(0)` never returns. */
  lemma UnionSameSetExample()
    ensures var once := Union(New(2), 0, 1);
            && Find(once.parents, 0) == Find(once.parents, 1)
            && !ChildAcyclic(Union(once, 0, 1))
  {
    UnionJoins(New(2), 0, 1);
    UnionSameSet(Union(New(2), 0, 1), 0, 1);
  }

  /** `union(p, q)` as the problem intends it: ignored when p and q are already in one
      set, otherwise the code's union. Child lists stay in step with parent links, so the
      child graph stays acyclic and every `size_sum` returns. */
  function GuardedUnion(uf: UnionFind, p: nat, q: nat): (r: UnionFind)
    requires Valid(uf) && Acyclic(uf.parents) && Consistent(uf)
    requires p < |uf.parents| && q < |uf.parents|
    ensures Valid(r) && |r.parents| == |uf.parents| && Acyclic(r.parents)
    ensures Consistent(r) && ChildAcyclic(r)
    ensures Find(uf.parents, p) == Find(uf.parents, q) ==> r == uf
    ensures Find(r.parents, q) == Find(r.parents, p) == Find(uf.parents, p)
  {
    if Find(uf.parents, p) == Find(uf.parents, q) then
      ConsistentChildAcyclic(uf);
      uf
    else
      var joined := Union(uf, p, q);
      UnionConsistent(uf, p, q);
      UnionJoins(uf, p, q);
      ConsistentChildAcyclic(joined);
      joined
  }

  /** The corrected union merges exactly q's set into p's: elements of q's old set resolve
      to p's root, every other element keeps its representative. */
  lemma {:induction false} GuardedUnionFind(uf: UnionFind, p: nat, q: nat, x: nat)
    requires Valid(uf) && Acyclic(uf.parents) && Consistent(uf)
    requires p < |uf.parents| && q < |uf.parents| && x < |uf.parents|
    ensures Find(GuardedUnion(uf, p, q).parents, x)
      == if Find(uf.parents, x) == Find(uf.parents, q) then Find(uf.parents, p) else Find(uf.parents, x)
  {
    if Find(uf.parents, p) != Find(uf.parents, q) {
      UnionFindEffect(uf, p, q, x);
    }
  }

  /** Points every element of `cs` at `target`, in list order, leaving the rest alone. */
  function Redirect(parents: seq<nat>, cs: seq<nat>, target: nat): (r: seq<nat>)
    requires forall j :: 0 <= j < |cs| ==> cs[j] < |parents|
    ensures |r| == |parents|
    ensures forall i :: 0 <= i < |parents| ==> r[i] == if i in cs then target else parents[i]
    decreases |cs|
  {
    if |cs| == 0 then parents
    else
      var r := Redirect(parents[cs[0] := target], cs[1..], target);
      assert forall i :: i in cs <==> i == cs[0] || i in cs[1..];
      r
  }

  /** A parent array obtained from an acyclic one by pointing p at the root `root`
      and every element of cs at `first` (cs[0], or `root` when cs is empty) is acyclic. */
  lemma RedirectedAcyclic(parents: seq<nat>, next: seq<nat>, p: nat, root: nat, cs: seq<nat>, first: nat)
    requires Acyclic(parents) && p < |parents| && root < |parents| && parents[root] == root
    requires (|cs| == 0 && first == root) || (|cs| > 0 && first == cs[0])
    requires first < |parents| && |next| == |parents|
    requires forall i :: 0 <= i < |parents| ==>
      next[i] == if i in cs then first else if i == p then root else parents[i]
    ensures Acyclic(next)
  {
    var n := |parents|;
    var depth := Depths(parents);
    var depth' := seq(n, x requires 0 <= x < n =>
      if x == first then 0 else if x == root then 1 else depth[x] + 2);
    assert InRange(next);
    forall i | 0 <= i < n && next[i] != i
      ensures depth'[next[i]] < depth'[i]
    {
      if i !in cs && i != p {
        assert next[i] == parents[i] && parents[i] != i;
        assert depth[parents[i]] < depth[i];
      }
    }
    assert DepthWitness(next, depth');
  }

  /** `move_number(p, q)`: p's parent becomes the root of q's set, then every child
      listed for p is pointed at the first child listed for p. No child list is
      written. */
  function MoveNumber(uf: UnionFind, p: nat, q: nat): (r: UnionFind)
    requires Valid(uf) && Acyclic(uf.parents) && p < |uf.parents| && q < |uf.parents|
    ensures Valid(r) && |r.parents| == |uf.parents| && Acyclic(r.parents)
    ensures r.children == uf.children
    ensures forall j :: 0 <= j < |uf.children[p]| ==> r.parents[uf.children[p][j]] == uf.children[p][0]
    ensures p !in uf.children[p] ==> r.parents[p] == Find(uf.parents, q)
    ensures forall j :: 0 <= j < |uf.parents| && j != p && j !in uf.children[p] ==> r.parents[j] == uf.parents[j]
  {
    var root := Find(uf.parents, q);
    var cs := uf.children[p];
    var parents := if |cs| == 0 then uf.parents[p := root] else Redirect(uf.parents[p := root], cs, cs[0]);
    RedirectedAcyclic(uf.parents, parents, p, root, cs, if |cs| == 0 then root else cs[0]);
    UnionFind(parents, uf.children)
  }

  /** Elements whose parent path meets neither p nor a child listed for p keep their
      representative across `move_number`, whatever the child lists hold. */
  lemma {:induction false} MoveNumberKeepsOthers(uf: UnionFind, p: nat, q: nat, y: nat)
    requires Valid(uf) && Acyclic(uf.parents)
    requires p < |uf.parents| && q < |uf.parents| && y < |uf.parents|
    requires forall z :: 0 <= z < |uf.parents| && OnPath(uf.parents, y, z) ==> z != p && z !in uf.children[p]
    ensures Find(MoveNumber(uf, p, q).parents, y) == Find(uf.parents, y)
    decreases Depths(uf.parents)[y]
  {
    var r := MoveNumber(uf, p, q);
    assert OnPath(uf.parents, y, y);
    assert r.parents[y] == uf.parents[y];
    if uf.parents[y] != y {
      var up := uf.parents[y];
      forall z | 0 <= z < |uf.parents| && OnPath(uf.parents, up, z)
        ensures z != p && z !in uf.children[p]
      {
        assert OnPath(uf.parents, y, z);
      }
      MoveNumberKeepsOthers(uf, p, q, up);
    }
  }

  /** Elements strictly below p end up in the set of p's first listed child, which
      becomes a root, when child lists agree with parent links. */
  lemma {:induction false} MoveNumberRegroupsBelow(uf: UnionFind, p: nat, q: nat, y: nat)
    requires Valid(uf) && Acyclic(uf.parents) && Consistent(uf)
    requires p < |uf.parents| && q < |uf.parents| && y < |uf.parents|
    requires y != p && OnPath(uf.parents, y, p)
    ensures |uf.children[p]| > 0
    ensures Find(MoveNumber(uf, p, q).parents, y) == uf.children[p][0]
    decreases Depths(uf.parents)[y]
  {
    var r := MoveNumber(uf, p, q);
    var next := uf.parents[y];
    if next == p {
      assert y in uf.children[p];
      var j :| 0 <= j < |uf.children[p]| && uf.children[p][j] == y;
      var first := uf.children[p][0];
      assert r.parents[first] == first;
      assert r.parents[y] == first;
    } else {
      assert y !in uf.children[p];
      assert r.parents[y] == next;
      MoveNumberRegroupsBelow(uf, p, q, next);
    }
  }

  /** The sets after `move_number(p, q)` when child lists agree with parent links:
      p joins the set of q's old root, p's former descendants form the set of p's
      first listed child, and every other element keeps its representative. */
  lemma {:induction false} MoveNumberFind(uf: UnionFind, p: nat, q: nat, y: nat)
    requires Valid(uf) && Acyclic(uf.parents) && Consistent(uf)
    requires p < |uf.parents| && q < |uf.parents| && y < |uf.parents|
    ensures var after := Find(MoveNumber(uf, p, q).parents, y);
      if y == p then after == Find(uf.parents, q)
      else if OnPath(uf.parents, y, p) then |uf.children[p]| > 0 && after == uf.children[p][0]
      else after == Find(uf.parents, y)
  {
    var r := MoveNumber(uf, p, q);
    var root := Find(uf.parents, q);
    if y == p {
      assert p in uf.children[p] <==> uf.parents[p] == p && p != p;
      assert p !in uf.children[p];
      assert root !in uf.children[p];
      assert r.parents[p] == root;
      if root != p {
        assert r.parents[root] == uf.parents[root] == root;
      }
    } else if OnPath(uf.parents, y, p) {
      MoveNumberRegroupsBelow(uf, p, q, y);
    } else {
      forall z | 0 <= z < |uf.parents| && OnPath(uf.parents, y, z)
        ensures z != p && z !in uf.children[p]
      {
        if z == p {
          assert false;
        } else if z in uf.children[p] {
          assert uf.parents[z] == p && z != p;
          assert OnPath(uf.parents, z, p);
          PathTransitive(uf.parents, y, z, p);
          assert false;
        }
      }
      MoveNumberKeepsOthers(uf, p, q, y);
    }
  }

  /** One `move_number` already leaves the child lists out of step with the parent links:
      after `move_number(0, 1)` on two new elements, 0 has parent 1 but is not listed
      under 1. */
  lemma MoveNumberBreaksConsistency()
    ensures !Consistent(MoveNumber(New(2), 0, 1))
  {
  }
}

=== FILE: size_sum.dfy ===
/**
  The query `size_sum(p)`: a recursive walk down the recorded child lists starting
  at p itself. An element with no listed children contributes (1, id + 1); an
  element with children contributes only what its children contribute.

  When child lists agree with parent links, the walk therefore counts the LEAVES
  of p's subtree, not the members of p's set. `SetSizeSum` is the intended
  query: the number of elements in p's set and the sum of their values. The main
  theorems relate both walks to plain sums over the elements.
*/
module Query {
  import opened Forest
  import opened Operations

  /** `size_sum(p)` as written. */
  function SizeSum(uf: UnionFind, p: nat): (r: (nat, nat))
    requires ChildAcyclic(uf) && p < |uf.parents|
    ensures 1 <= r.0 <= r.1
    ensures |uf.children[p]| == 0 ==> r == (1, p + 1)
    decreases Heights(uf)[p], 1
  {
    if |uf.children[p]| == 0 then (1, p + 1) else SizeSumFrom(uf, p, 0)
  }

  /** The loop of `size_sum`: component-wise sum of the results for children[x][i..]. */
  function SizeSumFrom(uf: UnionFind, x: nat, i: nat): (r: (nat, nat))
    requires ChildAcyclic(uf) && x < |uf.parents| && i <= |uf.children[x]|
    ensures r.0 <= r.1
    ensures i < |uf.children[x]| ==> 1 <= r.0
    decreases Heights(uf)[x], 0, |uf.children[x]| - i
  {
    if i == |uf.children[x]| then (0, 0)
    else
      var head := SizeSum(uf, uf.children[x][i]);
      var rest := SizeSumFrom(uf, x, i + 1);
      (head.0 + rest.0, head.1 + rest.1)
  }

  /** Walk down the child lists from x counting every element visited, x included.
      Started at a root, it gives the number of elements in that root's set and the
      sum of their values. */
  function TreeSizeSum(uf: UnionFind, x: nat): (r: (nat, nat))
    requires ChildAcyclic(uf) && x < |uf.parents|
    ensures 1 <= r.0 <= r.1 && x + 1 <= r.1
    decreases Heights(uf)[x], 1
  {
    var rest := TreeSizeSumFrom(uf, x, 0);
    (1 + rest.0, x + 1 + rest.1)
  }

  /** Component-wise sum of `TreeSizeSum` over children[x][i..]. */
  function TreeSizeSumFrom(uf: UnionFind, x: nat, i: nat): (r: (nat, nat))
    requires ChildAcyclic(uf) && x < |uf.parents| && i <= |uf.children[x]|
    ensures r.0 <= r.1
    ensures i < |uf.children[x]| ==> 1 <= r.0
    decreases Heights(uf)[x], 0, |uf.children[x]| - i
  {
    if i == |uf.children[x]| then (0, 0)
    else
      var head := TreeSizeSum(uf, uf.children[x][i]);
      var rest := TreeSizeSumFrom(uf, x, i + 1);
      (head.0 + rest.0, head.1 + rest.1)
  }

  /** Number of elements and sum of their values (id + 1) in the set containing p. */
  function SetSizeSum(uf: UnionFind, p: nat): (r: (nat, nat))
    requires ChildAcyclic(uf) && Acyclic(uf.parents) && p < |uf.parents|
    ensures 1 <= r.0 <= r.1
  {
    TreeSizeSum(uf, Find(uf.parents, p))
  }

  /** What an element contributes to a walk. `Custom` weighs each element by an
      arbitrary function, so a statement about every weight says which elements a
      walk visits and how often. */
  datatype Weight = Count | Value | LeafCount | LeafValue | Custom(f: nat -> nat)

  function WeightOf(uf: UnionFind, k: Weight, y: nat): nat
    requires Valid(uf) && y < |uf.parents|
  {
    match k
    case Count => 1
    case Value => y + 1
    case LeafCount => if |uf.children[y]| == 0 then 1 else 0
    case LeafValue => if |uf.children[y]| == 0 then y + 1 else 0
    case Custom(f) => f(y)
  }

  /** Total weight of every element visited by a walk down the child lists from x. */
  ghost function Walk(uf: UnionFind, x: nat, k: Weight): nat
    requires ChildAcyclic(uf) && x < |uf.parents|
    decreases Heights(uf)[x], 1
  {
    WeightOf(uf, k, x) + WalkFrom(uf, x, 0, k)
  }

  ghost function WalkFrom(uf: UnionFind, x: nat, i: nat, k: Weight): nat
    requires ChildAcyclic(uf) && x < |uf.parents| && i <= |uf.children[x]|
    decreases Heights(uf)[x], 0, |uf.children[x]| - i
  {
    if i == |uf.children[x]| then 0 else Walk(uf, uf.children[x][i], k) + WalkFrom(uf, x, i + 1, k)
  }

  /** Total weight of the elements y < n that have x on their parent path. */
  ghost function TotalBelow(uf: UnionFind, x: nat, k: Weight, n: nat): nat
    requires Valid(uf) && Acyclic(uf.parents) && n <= |uf.parents|
  {
    if n == 0 then 0
    else TotalBelow(uf, x, k, n - 1) + (if OnPath(uf.parents, n - 1, x) then WeightOf(uf, k, n - 1) else 0)
  }

  /** Total weight of the elements y < n whose representative is r. */
  ghost function TotalInSet(uf: UnionFind, r: nat, k: Weight, n: nat): nat
    requires Valid(uf) && Acyclic(uf.parents) && n <= |uf.parents|
  {
    if n == 0 then 0
    else TotalInSet(uf, r, k, n - 1) + (if Find(uf.parents, n - 1) == r then WeightOf(uf, k, n - 1) else 0)
  }

  /** Sum of `TotalBelow` over the children listed for x from index i on. */
  ghost function TotalBelowFrom(uf: UnionFind, x: nat, i: nat, k: Weight, n: nat): nat
    requires Valid(uf) && Acyclic(uf.parents) && n <= |uf.parents| && x < |uf.parents| && i <= |uf.children[x]|
    decreases |uf.children[x]| - i
  {
    if i == |uf.children[x]| then 0 else TotalBelow(uf, uf.children[x][i], k, n) + TotalBelowFrom(uf, x, i + 1, k, n)
  }

  /** Weight of y counted once for every child listed for x from index i on that lies on y's path. */
  ghost function Hits(uf: UnionFind, y: nat, x: nat, i: nat, k: Weight): nat
    requires Valid(uf) && Acyclic(uf.parents) && y < |uf.parents| && x < |uf.parents| && i <= |uf.children[x]|
    decreases |uf.children[x]| - i
  {
    if i == |uf.children[x]| then 0
    else (if OnPath(uf.parents, y, uf.children[x][i]) then WeightOf(uf, k, y) else 0) + Hits(uf, y, x, i + 1, k)
  }

  /** Sum of `Hits` over the elements y < n. */
  ghost function HitsTotal(uf: UnionFind, x: nat, i: nat, k: Weight, n: nat): nat
    requires Valid(uf) && Acyclic(uf.parents) && n <= |uf.parents| && x < |uf.parents| && i <= |uf.children[x]|
  {
    if n == 0 then 0 else HitsTotal(uf, x, i, k, n - 1) + Hits(uf, n - 1, x, i, k)
  }

  lemma {:induction false} TotalBelowFromEmpty(uf: UnionFind, x: nat, i: nat, k: Weight)
    requires Valid(uf) && Acyclic(uf.parents) && x < |uf.parents| && i <= |uf.children[x]|
    ensures TotalBelowFrom(uf, x, i, k, 0) == 0
    decreases |uf.children[x]| - i
  {
    if i < |uf.children[x]| {
      TotalBelowFromEmpty(uf, x, i + 1, k);
    }
  }

  lemma {:induction false} TotalBelowFromStep(uf: UnionFind, x: nat, i: nat, k: Weight, n: nat)
    requires Valid(uf) && Acyclic(uf.parents) && n < |uf.parents| && x < |uf.parents| && i <= |uf.children[x]|
    ensures TotalBelowFrom(uf, x, i, k, n + 1) == TotalBelowFrom(uf, x, i, k, n) + Hits(uf, n, x, i, k)
    decreases |uf.children[x]| - i
  {
    if i < |uf.children[x]| {
      TotalBelowFromStep(uf, x, i + 1, k, n);
    }
  }

  /** Summing over the children and then over the elements is summing over the
      elements and then over the children. */
  lemma {:induction false} ExchangeSums(uf: UnionFind, x: nat, i: nat, k: Weight, n: nat)
    requires Valid(uf) && Acyclic(uf.parents) && n <= |uf.parents| && x < |uf.parents| && i <= |uf.children[x]|
    ensures TotalBelowFrom(uf, x, i, k, n) == HitsTotal(uf, x, i, k, n)
  {
    if n == 0 {
      TotalBelowFromEmpty(uf, x, i, k);
    } else {
      ExchangeSums(uf, x, i, k, n - 1);
      TotalBelowFromStep(uf, x, i, k, n - 1);
    }
  }

  /** When child lists agree with parent links, no element lies below two different
      children of the same element. */
  lemma ChildrenDisjoint(uf: UnionFind, y: nat, x: nat, a: nat, b: nat)
    requires Valid(uf) && Acyclic(uf.parents) && Consistent(uf)
    requires y < |uf.parents| && x < |uf.parents| && a < |uf.parents| && b < |uf.parents|
    requires a in uf.children[x] && b in uf.children[x]
    requires OnPath(uf.parents, y, a) && OnPath(uf.parents, y, b)
    ensures a == b
  {
    var parents := uf.parents;
    assert parents[a] == x && a != x && parents[b] == x && b != x;
    PathLinear(parents, y, a, b);
    if a != b {
      if OnPath(parents, a, b) {
        assert OnPath(parents, x, b);
        PathDepth(parents, x, b);
      } else {
        assert OnPath(parents, x, a);
        PathDepth(parents, x, a);
      }
    }
  }

  /** When child lists agree with parent links, every proper descendant of x lies
      below one of the children listed for x. */
  lemma {:induction false} BelowSomeChild(uf: UnionFind, y: nat, x: nat)
    requires Valid(uf) && Acyclic(uf.parents) && Consistent(uf)
    requires y < |uf.parents| && x < |uf.parents|
    requires y != x && OnPath(uf.parents, y, x)
    ensures exists j :: 0 <= j < |uf.children[x]| && OnPath(uf.parents, y, uf.children[x][j])
    decreases Depths(uf.parents)[y]
  {
    var parents := uf.parents;
    var up := parents[y];
    if up == x {
      assert y in uf.children[x];
      var j :| 0 <= j < |uf.children[x]| && uf.children[x][j] == y;
      assert OnPath(parents, y, uf.children[x][j]);
    } else {
      BelowSomeChild(uf, up, x);
      var j :| 0 <= j < |uf.children[x]| && OnPath(parents, up, uf.children[x][j]);
      assert OnPath(parents, y, uf.children[x][j]);
    }
  }

  /** When child lists agree with parent links, y is counted by at most one listed child. */
  lemma {:induction false} HitsValue(uf: UnionFind, y: nat, x: nat, i: nat, k: Weight)
    requires Valid(uf) && Acyclic(uf.parents) && Consistent(uf)
    requires y < |uf.parents| && x < |uf.parents| && i <= |uf.children[x]|
    ensures Hits(uf, y, x, i, k) ==
      if exists j :: i <= j < |uf.children[x]| && OnPath(uf.parents, y, uf.children[x][j]) then WeightOf(uf, k, y) else 0
    decreases |uf.children[x]| - i
  {
    var cs := uf.children[x];
    if i < |cs| {
      HitsValue(uf, y, x, i + 1, k);
      if OnPath(uf.parents, y, cs[i]) {
        forall j | i + 1 <= j < |cs| ensures !OnPath(uf.parents, y, cs[j]) {
          if OnPath(uf.parents, y, cs[j]) {
            ChildrenDisjoint(uf, y, x, cs[i], cs[j]);
            assert false;
          }
        }
      } else {
        if exists j :: i <= j < |cs| && OnPath(uf.parents, y, cs[j]) {
          var j :| i <= j < |cs| && OnPath(uf.parents, y, cs[j]);
          assert j != i;
        }
      }
    }
  }

  /** The weight of y below x splits into y's own weight when y is x, and its weight
      below the children listed for x. */
  lemma SplitAtNode(uf: UnionFind, y: nat, x: nat, k: Weight)
    requires Valid(uf) && Acyclic(uf.parents) && Consistent(uf)
    requires y < |uf.parents| && x < |uf.parents|
    ensures (if OnPath(uf.parents, y, x) then WeightOf(uf, k, y) else 0)
      == (if y == x then WeightOf(uf, k, y) else 0) + Hits(uf, y, x, 0, k)
  {
    var parents := uf.parents;
    var cs := uf.children[x];
    HitsValue(uf, y, x, 0, k);
    if y == x {
      forall j | 0 <= j < |cs| ensures !OnPath(parents, x, cs[j]) {
        assert cs[j] in cs;
        assert parents[cs[j]] == x && cs[j] != x;
        if OnPath(parents, x, cs[j]) {
          PathDepth(parents, x, cs[j]);
          assert false;
        }
      }
    } else if OnPath(parents, y, x) {
      BelowSomeChild(uf, y, x);
    } else {
      forall j | 0 <= j < |cs| ensures !OnPath(parents, y, cs[j]) {
        assert cs[j] in cs;
        assert parents[cs[j]] == x && cs[j] != x;
        if OnPath(parents, y, cs[j]) {
          assert OnPath(parents, cs[j], x);
          PathTransitive(parents, y, cs[j], x);
          assert false;
        }
      }
    }
  }

  /** Summed over the elements: the weight below x is x's own weight plus the weight
      below each of its listed children. */
  lemma {:induction false} TotalBelowSplit(uf: UnionFind, x: nat, k: Weight, n: nat)
    requires Valid(uf) && Acyclic(uf.parents) && Consistent(uf)
    requires n <= |uf.parents| && x < |uf.parents|
    ensures TotalBelow(uf, x, k, n) == (if x < n then WeightOf(uf, k, x) else 0) + HitsTotal(uf, x, 0, k, n)
  {
    if n > 0 {
      TotalBelowSplit(uf, x, k, n - 1);
      SplitAtNode(uf, n - 1, x, k);
    }
  }

  /** When child lists agree with parent links, a walk down the child lists from x
      visits each element having x on its parent path exactly once, and no other:
      its total equals the total over those elements for every weight, `Custom`
      weights included. */
  lemma {:induction false} WalkIsTotalBelow(uf: UnionFind, x: nat, k: Weight)
    requires ChildAcyclic(uf) && Acyclic(uf.parents) && Consistent(uf) && x < |uf.parents|
    ensures Walk(uf, x, k) == TotalBelow(uf, x, k, |uf.parents|)
    decreases Heights(uf)[x], 1
  {
    var n := |uf.parents|;
    WalkFromIsTotalBelowFrom(uf, x, 0, k);
    ExchangeSums(uf, x, 0, k, n);
    TotalBelowSplit(uf, x, k, n);
  }

  lemma {:induction false} WalkFromIsTotalBelowFrom(uf: UnionFind, x: nat, i: nat, k: Weight)
    requires ChildAcyclic(uf) && Acyclic(uf.parents) && Consistent(uf)
    requires x < |uf.parents| && i <= |uf.children[x]|
    ensures WalkFrom(uf, x, i, k) == TotalBelowFrom(uf, x, i, k, |uf.parents|)
    decreases Heights(uf)[x], 0, |uf.children[x]| - i
  {
    if i < |uf.children[x]| {
      WalkIsTotalBelow(uf, uf.children[x][i], k);
      WalkFromIsTotalBelowFrom(uf, x, i + 1, k);
    }
  }

  /** For a root r, having r on one's parent path is having r as representative. */
  lemma {:induction false} TotalInSetIsTotalBelow(uf: UnionFind, r: nat, k: Weight, n: nat)
    requires Valid(uf) && Acyclic(uf.parents) && n <= |uf.parents| && r < |uf.parents| && uf.parents[r] == r
    ensures TotalInSet(uf, r, k, n) == TotalBelow(uf, r, k, n)
  {
    if n > 0 {
      TotalInSetIsTotalBelow(uf, r, k, n - 1);
      FindIsRootOnPath(uf.parents, n - 1, r);
    }
  }

  /** `size_sum` adds the leaf weight of every element its walk visits: elements
      with children contribute nothing themselves. */
  lemma {:induction false} SizeSumIsLeafWalk(uf: UnionFind, x: nat)
    requires ChildAcyclic(uf) && x < |uf.parents|
    ensures SizeSum(uf, x) == (Walk(uf, x, LeafCount), Walk(uf, x, LeafValue))
    decreases Heights(uf)[x], 1
  {
    SizeSumFromIsLeafWalk(uf, x, 0);
  }

  lemma {:induction false} SizeSumFromIsLeafWalk(uf: UnionFind, x: nat, i: nat)
    requires ChildAcyclic(uf) && x < |uf.parents| && i <= |uf.children[x]|
    ensures SizeSumFrom(uf, x, i) == (WalkFrom(uf, x, i, LeafCount), WalkFrom(uf, x, i, LeafValue))
    decreases Heights(uf)[x], 0, |uf.children[x]| - i
  {
    if i < |uf.children[x]| {
      SizeSumIsLeafWalk(uf, uf.children[x][i]);
      SizeSumFromIsLeafWalk(uf, x, i + 1);
    }
  }

  /** `TreeSizeSum` adds the count and value of every element its walk visits. */
  lemma {:induction false} TreeSizeSumIsWalk(uf: UnionFind, x: nat)
    requires ChildAcyclic(uf) && x < |uf.parents|
    ensures TreeSizeSum(uf, x) == (Walk(uf, x, Count), Walk(uf, x, Value))
    decreases Heights(uf)[x], 1
  {
    TreeSizeSumFromIsWalk(uf, x, 0);
  }

  lemma {:induction false} TreeSizeSumFromIsWalk(uf: UnionFind, x: nat, i: nat)
    requires ChildAcyclic(uf) && x < |uf.parents| && i <= |uf.children[x]|
    ensures TreeSizeSumFrom(uf, x, i) == (WalkFrom(uf, x, i, Count), WalkFrom(uf, x, i, Value))
    decreases Heights(uf)[x], 0, |uf.children[x]| - i
  {
    if i < |uf.children[x]| {
      TreeSizeSumIsWalk(uf, uf.children[x][i]);
      TreeSizeSumFromIsWalk(uf, x, i + 1);
    }
  }

  /** When child lists agree with parent links, `size_sum(p)` is the number of leaves
      (elements with no listed children) having p on their parent path, and the sum
      of their values. */
  lemma SizeSumCountsLeaves(uf: UnionFind, p: nat)
    requires Valid(uf) && Acyclic(uf.parents) && Consistent(uf) && p < |uf.parents|
    ensures ChildAcyclic(uf)
    ensures SizeSum(uf, p) == (TotalBelow(uf, p, LeafCount, |uf.parents|), TotalBelow(uf, p, LeafValue, |uf.parents|))
  {
    ConsistentChildAcyclic(uf);
    SizeSumIsLeafWalk(uf, p);
    WalkIsTotalBelow(uf, p, LeafCount);
    WalkIsTotalBelow(uf, p, LeafValue);
  }

  /** When child lists agree with parent links, `SetSizeSum(p)` is the number of
      elements whose representative is p's, and the sum of their values. */
  lemma SetSizeSumCountsSet(uf: UnionFind, p: nat)
    requires Valid(uf) && Acyclic(uf.parents) && Consistent(uf) && p < |uf.parents|
    ensures ChildAcyclic(uf)
    ensures var root := Find(uf.parents, p);
      SetSizeSum(uf, p) == (TotalInSet(uf, root, Count, |uf.parents|), TotalInSet(uf, root, Value, |uf.parents|))
  {
    ConsistentChildAcyclic(uf);
    var root := Find(uf.parents, p);
    TreeSizeSumIsWalk(uf, root);
    WalkIsTotalBelow(uf, root, Count);
    WalkIsTotalBelow(uf, root, Value);
    TotalInSetIsTotalBelow(uf, root, Count, |uf.parents|);
    TotalInSetIsTotalBelow(uf, root, Value, |uf.parents|);
  }

  /** `union(0, 1)` on two new elements hangs 1 under 0 and lists it as 0's child. */
  lemma UnionOfTwoExample()
    ensures Union(New(2), 0, 1) == UnionFind([0, 0], [[1], []])
  {
    var initial := New(2);
    NewInvariants(2);
    var uf := Union(initial, 0, 1);
    assert uf.parents == [0, 0];
    assert uf.children[0] == [1] && uf.children[1] == [];
    assert |uf.children| == 2;
    assert uf.children == [[1], []];
  }

  /** The state `union(0, 1)` produces on two new elements. */
  function JoinedPair(): (uf: UnionFind)
    ensures ChildAcyclic(uf) && Acyclic(uf.parents)
  {
    var uf := UnionFind([0, 0], [[1], []]);
    assert HeightWitness(uf, [1, 0]);
    assert DepthWitness(uf.parents, [0, 1]);
    uf
  }

  /** After `union(0, 1)` on two new elements the set containing 0 is {0, 1}, yet
      `size_sum(0)` reports (1, 2): it walks from 0, and 0 has a child, so only the
      leaf 1 is counted. */
  lemma SizeSumAfterUnionExample()
    ensures Union(New(2), 0, 1) == JoinedPair()
    ensures SizeSum(JoinedPair(), 0) == (1, 2)
  {
    UnionOfTwoExample();
    var uf := JoinedPair();
    assert SizeSum(uf, 1) == (1, 2);
    assert SizeSumFrom(uf, 0, 1) == (0, 0);
  }

  /** The corrected query reports count 2 and value sum 3 for the same state. */
  lemma SetSizeSumAfterUnionExample()
    ensures SetSizeSum(JoinedPair(), 0) == (2, 3)
  {
  }

  /** `move_number` leaves child lists stale, so even a union of two different sets
      can close a cycle of child lists, on which `size_sum` never returns: on two
      new elements, `union(0, 1)`, then `move_number(0, 1)` makes 1 a root again
      while 0 still lists it, and `union(1, 0)` then lists 0 under 1. */
  lemma StaleChildListsExample()
    ensures var moved := MoveNumber(Union(New(2), 0, 1), 0, 1);
      && Find(moved.parents, 1) != Find(moved.parents, 0)
      && !ChildAcyclic(Union(moved, 1, 0))
  {
    UnionOfTwoExample();
    var joined := UnionFind([0, 0], [[1], []]);
    var moved := MoveNumber(joined, 0, 1);
    assert Find(joined.parents, 1) == 0;
    assert moved.parents == [0, 1];
    assert Find(moved.parents, 1) == 1 && Find(moved.parents, 0) == 0;
    var cyclic := Union(moved, 1, 0);
    assert cyclic.children[1] == [] + [0] && cyclic.children[0] == [1];
    assert cyclic.children[0][0] == 1 && cyclic.children[1][0] == 0;
  }

  /** `move_number` never lists p under its new root, so a query misses the moved
      element even when the child graph stays acyclic: on two new elements,
      `move_number(0, 1)` puts 0 into 1's set, yet `size_sum(1)`, and the corrected
      query too, report (1, 2) instead of (2, 3). */
  lemma MoveLosesElementExample()
    ensures var moved := MoveNumber(New(2), 0, 1);
      && Find(moved.parents, 0) == Find(moved.parents, 1)
      && ChildAcyclic(moved)
      && SizeSum(moved, 1) == (1, 2)
      && SetSizeSum(moved, 1) == (1, 2)
  {
    var moved := MoveNumber(New(2), 0, 1);
    assert Find(New(2).parents, 1) == 1;
    assert moved == UnionFind([1, 1], [[], []]);
    assert HeightWitness(moved, [0, 0]);
  }
}
